=== FILE: README.md ===
# J3DUltra facade, modelled in Dafny

J3DUltra is a Python extension module over the J3D rendering engine. Its C++ facade (`src/main.cpp`) owns a small amount of process-wide state and makes a few decisions of its own:

- a one-time `init` flag gates the loaders, the camera and the render entry point;
- `renderModel` queues instances in a render batch, and `RenderScene` hands the batch to the engine and empties it;
- the default sort installed into the engine draws render packets in order of descending sort key;
- color (BRK) animations are loaded generically and then narrowed to the color kind by a checked cast;
- the `J3DLight` constructor packs the "follow camera" flag into the fourth component of the light's position.

This project models those decisions and proves what they guarantee.

Modules:

- `Wrappers` (wrappers.dfy): `Option`, standing for a nullable `shared_ptr`.
- `Linear` (linear.dfy): three- and four-vectors and 4x4 matrices. Their float contents are opaque reals that are only copied.
- `Lights` (lights.dfy): the `J3DLight` record and the binding's six-argument constructor.
- `Sorting` (sorting.dfy): the default comparator, the installed in-place sort over an array of render packets, and what the sort's result is.
- `Animations` (animations.dfy): tracks with an explicit kind tag. `dynamic_pointer_cast` to the color class becomes `AsColor`, a test of that tag.
- `J3DUltra` (facade.dfy): the `Facade` class holds the statics `init`, `renderBatch`, `viewMtx` and `projMtx`, plus two logs of external effects:
  - `engine`: the ordered calls into the GPU layer and the engine (load GL, create or destroy the uniform buffer, install the sort, upload the camera, render, and the engine's model and animation loaders);
  - `console`: the lines written to standard output.

  `Facade` also holds `nextHandle`, which stands for object identity: every animation load creates a new track object, and that object is stamped with the next handle. `Instance` is a model instance with its color-animation slot. `Facade.Consistent()` is the intended lifecycle invariant: the facade is initialised exactly while its uniform buffer is allocated.
- `Scenarios` (scenarios.dfy): whole sessions on a freshly loaded module, each with its outcome stated.

External inputs are parameters:

- what `gladLoadGL` reports is `glLoads`;
- what `std::filesystem::exists` reports is `pathExists`;
- the engine's animation parsers are the function parameters `BytesLoader` / `PathLoader`. Each returns the kind of track the container holds, or null.

`CleanupJ3DUltra` does not reset `init`, so the module never returns to the uninitialised state and a later `init()` fails. The model follows the code (`CleanupJ3DUltra`) and adds the corrected `CleanupAndReset`; see Findings.

## Model

| member | source | states |
|---|---|---|
| `J3DUltra.Facade.constructor` | src/main.cpp:21-23 | The module starts uninitialised, with an empty batch, value-initialised matrices (all zeros under GLM's default configuration), no engine calls, no output and no track objects created yet. |
| `J3DUltra.Facade.InitJ3DUltra` | src/main.cpp:25-44 | Returns true exactly when the facade was uninitialised and GL loading succeeds. GL is loaded only when the facade was uninitialised. Only on success does it set `init`, create the uniform buffer once and install the default sort. An already-initialised call makes no GPU call at all, so it never re-creates the buffer. Other state is unchanged and the lifecycle invariant is kept. |
| `J3DUltra.Facade.SetCamera` | src/main.cpp:46-58 | When initialised: stores exactly the first 16 floats of each argument as `projMtx` / `viewMtx` and uploads that pair to the uniform buffer. When not initialised: neither matrix changes and nothing is uploaded. |
| `J3DUltra.Facade.CleanupJ3DUltra` | src/main.cpp:60-65 | When initialised: destroys the uniform buffer and empties the batch, but leaves `init` set, so the facade stays "ready" with no buffer. When not initialised: a no-op. |
| `J3DUltra.Facade.CleanupAndReset` | src/main.cpp:60-65 | Corrected cleanup: the same effects, and the facade ends uninitialised. The lifecycle invariant is kept. |
| `J3DUltra.Facade.LoadJ3DModelFromPath` | src/main.cpp:67-82 | Returns a new instance exactly when the facade is initialised and the path exists, and only then calls the engine's model loader. For a missing path while initialised, it writes the one diagnostic line and returns null without loading. Uninitialised, it does nothing. |
| `J3DUltra.Facade.LoadJ3DModelFromBytes` | src/main.cpp:84-95 | Returns a new instance exactly when the facade is initialised, and calls the engine's model loader only then. |
| `J3DUltra.Facade.RenderModel` | src/main.cpp:109-111 | Appends exactly the given instance to the end of the batch, duplicates allowed, without checking `init`. Nothing else changes. |
| `J3DUltra.Facade.RenderScene` | src/main.cpp:166-171 | When initialised: makes one engine render call carrying the whole current batch and the stored matrices, then leaves the batch empty. When not initialised: nothing changes, batch included. The uniform buffer's state is unaffected. |
| `J3DUltra.Facade.LoadBrkFromBytes` | src/main.cpp:140-150 | Returns a track exactly when the facade is initialised and the parse gives a Color track; otherwise null. The result is always a color handle. When it is not null, it is a new object with a handle no earlier load received. The engine's loader is called only when initialised. |
| `J3DUltra.Facade.LoadBrkFromPath` | src/main.cpp:152-160 | Same as the byte-buffer load, for the path loader. |
| `J3DUltra.Facade.AttachBrkFromBytes` | src/main.cpp:113-123 | When initialised: the engine's loader is called once, creating a new track object, and the color slot becomes that object narrowed to Color, so a non-Color or failed load clears it. When not initialised: no load and the slot is untouched. |
| `J3DUltra.Facade.AttachBrkFromPath` | src/main.cpp:125-133 | When initialised: the typed path loader is called once. The slot becomes a new Color track, or null for a failed or non-Color load, so an earlier track is cleared. The typed load is read as the generic load plus the checked cast. When not initialised: no load and the slot is untouched. |
| `J3DUltra.Facade.AttachBrkHandle` | src/main.cpp:135-138 | When initialised: stores the given color handle (or null) as it is. When not initialised: the slot is untouched. |
| `Animations.AsColor` | src/main.cpp:120 | The checked cast yields a color handle. It is non-null exactly when the load was a Color track, and then it is that same track. |
| `Sorting.BeforeIsStrictWeakOrder` | src/main.cpp:34-36 | The comparator "greater key first" is irreflexive and transitive, and its incomparability is transitive (the strict weak order `std::sort` requires). |
| `Sorting.DefaultSort` | src/main.cpp:33-37 | Sorting in place leaves the packets a permutation of the input, with keys non-increasing from left to right. |
| `Sorting.SortedDistinctIsStrictlyDescending` | src/main.cpp:35 | With distinct keys, the sorted order is strictly descending. |
| `Sorting.HeadIsMaximal` | src/main.cpp:35 | The first packet of a sorted sequence has the largest key. |
| `Sorting.SortedPermutationUnique` | src/main.cpp:33-37 | With distinct keys, any two sorted permutations of the same packets are equal, so the draw order is fully determined. |
| `Sorting.DescendingExample` | src/main.cpp:33-37 | Packets with keys 5, 1, 9, 3 are drawn as 9, 5, 3, 1. |
| `Linear.MakeMat4` | src/main.cpp:50-51 | Builds a matrix from the 16 floats at the start of the buffer, copied in order. |
| `Lights.MakeLight` | src/main.cpp:200-210 | Position `w` is 0 exactly when `followCamera` is set, and 1 otherwise. Direction, angle and distance attenuation get `w` = 1. The given components and the color are kept. |
| `Scenarios.InitTwice` | src/main.cpp:25-44 | Calling init twice: the first call succeeds exactly when GL loads, and the second always fails. After a successful first call, the second makes no GPU call at all. After a failed first call, the second tries to load GL again. The buffer is created at most once. |
| `Scenarios.UninitializedIsInert` | src/main.cpp:46-171 | Before init: both model loaders and the BRK loader return null, all three attach overloads leave a previously set Color track in place, no call of any kind (loaders, camera, render, the as-written cleanup) reaches the GPU or engine, and only `renderModel` still grows the batch. |
| `Scenarios.MissingModel` | src/main.cpp:67-73 | Loading "missing.bmd" gives null and exactly one diagnostic line. The engine's model loader is never called: the log holds only init's GL load, buffer creation and sort install. |
| `Scenarios.OneFrame` | src/main.cpp:46-171 | Init, camera, one submission, render: exactly one render call carries that instance, and the batch ends empty. |
| `Scenarios.FrameOf` | src/main.cpp:109-171 | N submissions (duplicates allowed) then one render: the engine receives them once, in submission order, and the batch ends empty whatever N is. |
| `Scenarios.MismatchClearsColorSlot` | src/main.cpp:113-150 | A Color track loaded with `LoadBrk` and attached by handle is silently cleared by a later attach of a non-Color container. |
| `Scenarios.LoadThenAttachSeparateTracks` | src/main.cpp:113-150 | Loading a BRK and attaching the handle, versus attaching the same bytes directly: both slots are null or both hold a Color track, exactly when initialised and the parse gives Color. The two instances hold distinct track objects. |
| `Scenarios.SortFourPackets` | src/main.cpp:33-37 | The default sort applied to keys 5, 1, 9, 3 yields 9, 5, 3, 1. |
| `Scenarios.ReinitAfterCleanupAsWritten` | src/main.cpp:25-65 | As written: after init and cleanup, a second init fails. The facade stays initialised with its uniform buffer destroyed, and the next render is still submitted. |
| `Scenarios.ReinitAfterCleanupCorrected` | src/main.cpp:25-65 | With the resetting cleanup, a second init succeeds and the buffer is allocated again. |

## Left out

- Python registration and overload plumbing (src/main.cpp:173-251) is binding glue and is not modelled. One consequence: the Python overload `attachBrk(anim=…)` (line 236) calls the engine's setter directly. From Python it therefore skips the `init` guard of the C++ function at lines 135-138. The model follows the C++ function.
- `gladLoadGL`, the uniform-buffer operations and `J3DRendering::Render` are GPU and engine code. Their results are parameters, and each call is only recorded in the `engine` log.
- Model and animation container parsing (`J3DModelLoader`, `J3DAnimationLoader`, `bStream`) belongs to the engine. Each loader call is recorded in the `engine` log; the parse itself is not modelled. A successful model load is a fresh instance with an empty color slot. A successful animation load is a new track object: its kind is what the parser parameter reports, and its identity is a fresh handle. A track's contents, such as its frame cursor, are not modelled. The case where the engine's loader returns null model data, which the source dereferences (lines 81, 94), is not modelled.
- J3DUltra.Facade.LoadBrkFromPath, J3DUltra.Facade.AttachBrkFromPath: the typed loader `LoadAnimation<J3DColorAnimationInstance>(path)` (lines 130, 157) is not part of this model. It is taken to be the generic load followed by the same checked cast. Because the parser parameter is unconstrained, this covers both outcomes of the typed loader: null, or a new color track.
- Foreign calls are assumed to return normally: `gladLoadGL`, the uniform-buffer operations, `J3DRendering::Render`, the model and animation loaders, and `std::filesystem::exists`. In the source, an exception from `Render` propagates before `renderBatch.clear()` (lines 168-169) and leaves the batch as it was. The next render then draws those instances again. Likewise, an exception from `exists` (line 70) leaves `LoadJ3DModel(path)` without printing its diagnostic. J3DUltra.Facade.RenderScene and Scenarios.FrameOf promise an empty batch only for a draw call that returns.
- J3DUltra.Facade.SetCamera: the source reads 16 floats from each vector without checking the length, which is undefined behaviour for shorter vectors. The model requires at least 16 floats per matrix when the facade is initialised, and stores the first 16.
- Float contents (matrices, light vectors, `dt`, the camera position) are opaque reals that are only copied or passed through. No floating-point arithmetic is modelled.
- `setTranslation`, `setRotation`, `setScale` and `setLight` (lines 97-107, 162-164) are one-line forwards to engine methods. So are `getBrk` and the default `J3DLight` constructor (lines 199, 237). None of them is modelled.
- Sorting.DefaultSort: the algorithm inside `std::sort` is not visible. An insertion sort stands in for it, and the contract states only what `std::sort` promises: sorted by the comparator, and a permutation. Whatever else a render packet carries is an opaque `id`. The sort key is taken as a natural number, because it is only compared.
- Picking, the light table and the five non-Color animation kinds do not appear in this version of the facade. Those kinds exist only as tags that the generic loader may return.
- Writing to standard output is modelled as appending a line to `console`. Concurrency is not modelled: the facade is single-threaded.

## Findings

| source | as written | input that shows it | evidently intended | confidence | as-written member | corrected member |
|---|---|---|---|---|---|---|
| src/main.cpp:60-65 | `CleanupJ3DUltra` destroys the uniform buffer and clears the batch but never resets `init` | `init()`, `cleanup()`, `init()`: the second `init()` returns false, the buffer is not re-created, and `render()` still submits draws | cleanup returns the facade to the uninitialised state, so that the facade is initialised exactly while its uniform buffer exists, and a later `init()` starts a new session | medium, not executed | `Scenarios.ReinitAfterCleanupAsWritten` | `J3DUltra.Facade.CleanupAndReset` |

=== FILE: animations.dfy ===
/**
 * Animation tracks as the engine's generic loader produces them, and the
 * checked narrowing the facade applies to them. The engine's class
 * hierarchy becomes an explicit kind tag fixed when the track is parsed;
 * `std::dynamic_pointer_cast` to the color class becomes a test of that tag.
 */
module Animations {
  import opened Wrappers

  /** The concrete track classes the generic loader can return. */
  datatype AnimKind = Color | TextureIndex | TextureMatrix | Joint | JointFull | Visibility

  /**
   * A track object: its concrete kind and a handle standing for the shared
   * pointer's identity. Every load creates a new object, so the handle is
   * assigned by the facade, not by the parse.
   */
  datatype Anim = Anim(kind: AnimKind, handle: nat)

  /**
   * What the engine's generic loader parses from a byte buffer: the kind of
   * track the container holds, or null when it cannot be read.
   */
  type BytesLoader = seq<bv8> -> Option<AnimKind>

  /** The same over a file path. */
  type PathLoader = string -> Option<AnimKind>

  /** The track object a load creates under the given handle, or null when the parse failed. */
  function NewTrack(parsed: Option<AnimKind>, handle: nat): (r: Option<Anim>)
    ensures r.Some? <==> parsed.Some?
    ensures r.Some? ==> r.value.kind == parsed.value && r.value.handle == handle
  {
    match parsed
    case Some(kind) => Some(Anim(kind, handle))
    case None => None
  }

  /** What a `shared_ptr<J3DColorAnimationInstance>` can hold: null or a color track. */
  predicate IsColorHandle(a: Option<Anim>) {
    a.Some? ==> a.value.kind == Color
  }

  /** `dynamic_pointer_cast<J3DColorAnimationInstance>` of a generically loaded track. */
  function AsColor(loaded: Option<Anim>): (r: Option<Anim>)
    ensures IsColorHandle(r)
    ensures r.Some? <==> loaded.Some? && loaded.value.kind == Color
    ensures r.Some? ==> r == loaded
  {
    match loaded
    case Some(Anim(Color, _)) => loaded
    case _ => None
  }
}

=== FILE: facade.dfy ===
/**
 * The host-facing facade of J3DUltra: the process-wide state (`init`, the
 * render batch and the two camera matrices) and the entry points that read
 * and update it. The calls the facade makes into the GPU and the rendering
 * engine are not executed here; each is recorded, in order, in `engine`.
 */
module J3DUltra {
  import opened Wrappers
  import opened Linear
  import opened Animations

  /** A placed model, as far as the facade touches it: its color-animation slot. */
  class Instance {
    var colorSlot: Option<Anim>

    /** `J3DModelData::CreateInstance`: a new instance with no color track attached. */
    constructor ()
      ensures colorSlot == None
    {
      colorSlot := None;
    }
  }

  /** One call from the facade into the GPU layer or the rendering engine. */
  datatype EngineCall =
    | LoadGL
    | CreateUbo
    | DestroyUbo
    | InstallDefaultSort
    | UploadCamera(proj: Mat4, view: Mat4)
    | Render(dt: real, cameraPos: Vec3, view: Mat4, proj: Mat4, batch: seq<Instance>)
    | LoadModelFromPath(path: string)
    | LoadModelFromBytes(data: seq<bv8>)
    | LoadAnimationFromPath(path: string)
    | LoadAnimationFromBytes(data: seq<bv8>)

  /** The message printed for a model path that does not exist. */
  function MissingModelMessage(path: string): (line: string) {
    "Couldn't load model " + path
  }

  /** The facade's process-wide state. */
  class Facade {
    var init: bool
    /** Whether the uniform buffer object is currently allocated on the GPU. */
    var uboAlive: bool
    var batch: seq<Instance>
    var viewMtx: Mat4
    var projMtx: Mat4
    /** The GPU and engine calls made so far. */
    var engine: seq<EngineCall>
    /** Lines written to standard output. */
    var console: seq<string>
    /** The handle the next track object created by an animation load receives. */
    var nextHandle: nat

    /** The intended lifecycle invariant: the facade is ready exactly while its uniform buffer is allocated. */
    ghost predicate Consistent()
      reads this
    {
      init == uboAlive
    }

    /** The state at load time of the extension module. */
    constructor ()
      ensures !init && !uboAlive && batch == [] && viewMtx == ZeroMat4 && projMtx == ZeroMat4
      ensures engine == [] && console == [] && nextHandle == 0
      ensures Consistent()
    {
      init, uboAlive := false, false;
      batch := [];
      viewMtx, projMtx := ZeroMat4, ZeroMat4;
      engine := [];
      console := [];
      nextHandle := 0;
    }

    /**
     * `InitJ3DUltra`. `glLoads` is what `gladLoadGL` reports; GL is only
     * loaded when the facade is not yet initialised.
     */
    method InitJ3DUltra(glLoads: bool) returns (ok: bool)
      modifies this
      ensures ok <==> !old(init) && glLoads
      ensures init == (old(init) || glLoads)
      ensures uboAlive == if ok then true else old(uboAlive)
      ensures engine == if old(init) then old(engine)
                        else old(engine) + [LoadGL] + (if glLoads then [CreateUbo, InstallDefaultSort] else [])
      ensures batch == old(batch) && viewMtx == old(viewMtx) && projMtx == old(projMtx)
      ensures console == old(console) && nextHandle == old(nextHandle)
      ensures old(Consistent()) ==> Consistent()
    {
      ok := false;
      if !init {
        engine := engine + [LoadGL];
        if glLoads {
          init := true;
          uboAlive := true;
          engine := engine + [CreateUbo, InstallDefaultSort];
          ok := true;
        }
      }
    }

    /**
     * `SetCamera`: stores both matrices and uploads them to the uniform
     * buffer. The source reads 16 floats from each vector without checking
     * its length, so callers must supply them.
     */
    method SetCamera(proj: seq<real>, view: seq<real>)
      requires init ==> |proj| >= 16 && |view| >= 16
      modifies this
      ensures init == old(init) && uboAlive == old(uboAlive)
      ensures batch == old(batch) && console == old(console) && nextHandle == old(nextHandle)
      ensures old(init) ==> projMtx == MakeMat4(proj) && viewMtx == MakeMat4(view)
      ensures old(init) ==> engine == old(engine) + [UploadCamera(MakeMat4(proj), MakeMat4(view))]
      ensures !old(init) ==> projMtx == old(projMtx) && viewMtx == old(viewMtx) && engine == old(engine)
      ensures old(Consistent()) ==> Consistent()
    {
      if init {
        var projection := MakeMat4(proj);
        var viewm4 := MakeMat4(view);
        viewMtx := viewm4;
        projMtx := projection;
        engine := engine + [UploadCamera(projection, viewm4)];
      }
    }

    /**
     * `CleanupJ3DUltra` as the source writes it: destroys the uniform buffer
     * and empties the batch, but leaves `init` set.
     */
    method CleanupJ3DUltra()
      modifies this
      ensures init == old(init) && viewMtx == old(viewMtx) && projMtx == old(projMtx)
      ensures console == old(console) && nextHandle == old(nextHandle)
      ensures old(init) ==> batch == [] && engine == old(engine) + [DestroyUbo]
      ensures !old(init) ==> batch == old(batch) && engine == old(engine)
      ensures old(init) ==> !uboAlive
      ensures !old(init) ==> uboAlive == old(uboAlive)
    {
      if init {
        engine := engine + [DestroyUbo];
        uboAlive := false;
        batch := [];
      }
    }

    /**
     * Cleanup that also returns the module to the uninitialised state: as
     * `CleanupJ3DUltra`, and a later `InitJ3DUltra` allocates the buffer again.
     */
    method CleanupAndReset()
      modifies this
      ensures !init && viewMtx == old(viewMtx) && projMtx == old(projMtx)
      ensures console == old(console) && nextHandle == old(nextHandle)
      ensures old(init) ==> !uboAlive && batch == [] && engine == old(engine) + [DestroyUbo]
      ensures !old(init) ==> uboAlive == old(uboAlive) && batch == old(batch) && engine == old(engine)
      ensures old(Consistent()) ==> Consistent()
    {
      if init {
        engine := engine + [DestroyUbo];
        uboAlive := false;
        batch := [];
        init := false;
      }
    }

    /** `LoadJ3DModel(path)`: `pathExists` is what `std::filesystem::exists(path)` reports. */
    method LoadJ3DModelFromPath(path: string, pathExists: bool) returns (r: Option<Instance>)
      modifies this`console, this`engine
      ensures r.Some? <==> init && pathExists
      ensures r.Some? ==> fresh(r.value) && r.value.colorSlot == None
      ensures console == if init && !pathExists then old(console) + [MissingModelMessage(path)] else old(console)
      ensures engine == if init && pathExists then old(engine) + [LoadModelFromPath(path)] else old(engine)
    {
      if !init {
        return None;
      }
      if !pathExists {
        console := console + [MissingModelMessage(path)];
        return None;
      }
      engine := engine + [LoadModelFromPath(path)];
      var instance := new Instance();
      r := Some(instance);
    }

    /** `LoadJ3DModel(bytes)`: only the readiness guard is the facade's own. */
    method LoadJ3DModelFromBytes(data: seq<bv8>) returns (r: Option<Instance>)
      modifies this`engine
      ensures r.Some? <==> init
      ensures r.Some? ==> fresh(r.value) && r.value.colorSlot == None
      ensures engine == if init then old(engine) + [LoadModelFromBytes(data)] else old(engine)
    {
      if !init {
        return None;
      }
      engine := engine + [LoadModelFromBytes(data)];
      var instance := new Instance();
      r := Some(instance);
    }

    /** `renderModel`: queues the instance for the next frame; no readiness check, no deduplication. */
    method RenderModel(instance: Instance)
      modifies this`batch
      ensures batch == old(batch) + [instance]
    {
      batch := batch + [instance];
    }

    /**
     * `RenderScene`: hands the batch and the stored matrices to the engine's
     * draw pass once, then empties the batch.
     */
    method RenderScene(dt: real, cameraPos: Vec3)
      modifies this
      ensures init == old(init) && uboAlive == old(uboAlive)
      ensures viewMtx == old(viewMtx) && projMtx == old(projMtx) && console == old(console)
      ensures nextHandle == old(nextHandle)
      ensures old(init) ==> batch == [] && engine == old(engine) + [Render(dt, cameraPos, viewMtx, projMtx, old(batch))]
      ensures !old(init) ==> batch == old(batch) && engine == old(engine)
      ensures old(Consistent()) ==> Consistent()
    {
      if init {
        engine := engine + [Render(dt, cameraPos, viewMtx, projMtx, batch)];
        batch := [];
      }
    }

    /**
     * `LoadBrk(bytes)`: a new track object from the generic loader, returned
     * if it is a color track and otherwise null.
     */
    method LoadBrkFromBytes(data: seq<bv8>, load: BytesLoader) returns (r: Option<Anim>)
      modifies this`engine, this`nextHandle
      ensures engine == if init then old(engine) + [LoadAnimationFromBytes(data)] else old(engine)
      ensures nextHandle == if init then old(nextHandle) + 1 else old(nextHandle)
      ensures IsColorHandle(r)
      ensures r.Some? <==> init && load(data) == Some(Color)
      ensures r.Some? ==> r.value.handle == old(nextHandle)
    {
      if !init {
        return None;
      }
      engine := engine + [LoadAnimationFromBytes(data)];
      var animLoaded := NewTrack(load(data), nextHandle);
      nextHandle := nextHandle + 1;
      r := AsColor(animLoaded);
    }

    /** `LoadBrk(path)`: the engine's typed loader, taken as the generic load followed by the same cast. */
    method LoadBrkFromPath(path: string, load: PathLoader) returns (r: Option<Anim>)
      modifies this`engine, this`nextHandle
      ensures engine == if init then old(engine) + [LoadAnimationFromPath(path)] else old(engine)
      ensures nextHandle == if init then old(nextHandle) + 1 else old(nextHandle)
      ensures IsColorHandle(r)
      ensures r.Some? <==> init && load(path) == Some(Color)
      ensures r.Some? ==> r.value.handle == old(nextHandle)
    {
      if !init {
        return None;
      }
      engine := engine + [LoadAnimationFromPath(path)];
      r := AsColor(NewTrack(load(path), nextHandle));
      nextHandle := nextHandle + 1;
    }

    /** `attachBrk(instance, bytes)`: stores the cast of a new track in the color slot, null included. */
    method AttachBrkFromBytes(instance: Instance, data: seq<bv8>, load: BytesLoader)
      modifies instance, this`engine, this`nextHandle
      ensures engine == if old(init) then old(engine) + [LoadAnimationFromBytes(data)] else old(engine)
      ensures nextHandle == if old(init) then old(nextHandle) + 1 else old(nextHandle)
      ensures old(init) ==> instance.colorSlot == AsColor(NewTrack(load(data), old(nextHandle)))
      ensures !old(init) ==> instance.colorSlot == old(instance.colorSlot)
    {
      if !init {
        return;
      }
      engine := engine + [LoadAnimationFromBytes(data)];
      var animLoaded := NewTrack(load(data), nextHandle);
      nextHandle := nextHandle + 1;
      var animInstance := AsColor(animLoaded);
      instance.colorSlot := animInstance;
    }

    /** `attachBrk(instance, path)`. */
    method AttachBrkFromPath(instance: Instance, path: string, load: PathLoader)
      modifies instance, this`engine, this`nextHandle
      ensures engine == if old(init) then old(engine) + [LoadAnimationFromPath(path)] else old(engine)
      ensures nextHandle == if old(init) then old(nextHandle) + 1 else old(nextHandle)
      ensures old(init) ==> instance.colorSlot == AsColor(NewTrack(load(path), old(nextHandle)))
      ensures !old(init) ==> instance.colorSlot == old(instance.colorSlot)
    {
      if !init {
        return;
      }
      engine := engine + [LoadAnimationFromPath(path)];
      instance.colorSlot := AsColor(NewTrack(load(path), nextHandle));
      nextHandle := nextHandle + 1;
    }

    /** `attachBrk(instance, anim)`: the handle is typed as a color track, so it is stored as given. */
    method AttachBrkHandle(instance: Instance, anim: Option<Anim>)
      requires IsColorHandle(anim)
      modifies instance
      ensures old(init) ==> instance.colorSlot == anim
      ensures !old(init) ==> instance.colorSlot == old(instance.colorSlot)
    {
      if !init {
        return;
      }
      instance.colorSlot := anim;
    }
  }
}

=== FILE: lights.dfy ===
/**
 * The light record and the constructor the Python binding offers for it.
 * The constructor packs the "follow camera" flag into the unused fourth
 * component of the position and pads the other three-vectors with 1.
 */
module Lights {
  import opened Linear

  datatype J3DLight = J3DLight(
    position: Vec4,
    direction: Vec4,
    color: Vec4,
    angleAtten: Vec4,
    distAtten: Vec4)

  /** How the engine reads the flag back: a zero fourth component means "tracks the camera". */
  predicate FollowsCamera(l: J3DLight) {
    l.position.w == 0.0
  }

  /** The padding every constructed light carries in its fourth components. */
  predicate PaddedWithOne(l: J3DLight) {
    l.direction.w == 1.0 && l.angleAtten.w == 1.0 && l.distAtten.w == 1.0
  }

  /** The binding's six-argument `J3DLight` constructor. */
  function MakeLight(position: Vec3, direction: Vec3, color: Vec4,
                     angleAtten: Vec3, distAtten: Vec3, followCamera: bool): (l: J3DLight)
    ensures FollowsCamera(l) <==> followCamera
    ensures l.position.w == 0.0 || l.position.w == 1.0
    ensures PaddedWithOne(l)
    ensures Xyz(l.position) == position && Xyz(l.direction) == direction
    ensures Xyz(l.angleAtten) == angleAtten && Xyz(l.distAtten) == distAtten
    ensures l.color == color
  {
    J3DLight(
      Vec4(position.x, position.y, position.z, if followCamera then 0.0 else 1.0),
      Vec4(direction.x, direction.y, direction.z, 1.0),
      Vec4(color.x, color.y, color.z, color.w),
      Vec4(angleAtten.x, angleAtten.y, angleAtten.z, 1.0),
      Vec4(distAtten.x, distAtten.y, distAtten.z, 1.0))
  }
}

=== FILE: linear.dfy ===
/**
 * The small vector and matrix values that cross the facade's boundary.
 * Their float contents are never computed with here; reals stand in for
 * them so that values can be compared and copied.
 */
module Linear {

  datatype Vec3 = Vec3(x: real, y: real, z: real)

  datatype Vec4 = Vec4(x: real, y: real, z: real, w: real)

  /** The first three components of a four-vector. */
  function Xyz(v: Vec4): (v3: Vec3) {
    Vec3(v.x, v.y, v.z)
  }

  /** A 4x4 matrix as its 16 floats in the order `glm::make_mat4` reads them (column-major). */
  type Mat4 = m: seq<real> | |m| == 16 witness ZeroCells()

  function ZeroCells(): (z: seq<real>)
    ensures |z| == 16
  {
    seq(16, _ => 0.0)
  }

  /**
   * The value-initialised `glm::mat4 {}` the facade starts with: all zeros
   * under GLM's default configuration (a defaulted constructor). Older GLM
   * versions and `GLM_FORCE_CTOR_INIT` give the identity instead.
   */
  const ZeroMat4: Mat4 := ZeroCells()

  /** `glm::make_mat4(p)`: the 16 floats starting at `p`, copied in order. */
  function MakeMat4(cells: seq<real>): (m: Mat4)
    requires |cells| >= 16
    ensures forall k :: 0 <= k < 16 ==> m[k] == cells[k]
  {
    cells[..16]
  }
}

=== FILE: scenarios.dfy ===
/**
 * Whole-session uses of the facade, each on a freshly loaded module, with
 * what they leave behind: the engine calls made, the batch, the slots.
 */
module Scenarios {
  import opened Wrappers
  import opened Linear
  import opened Animations
  import opened Sorting
  import opened J3DUltra

  /** Identity matrix as 16 column-major floats. */
  const Identity16: seq<real> :=
    [1.0, 0.0, 0.0, 0.0, 0.0, 1.0, 0.0, 0.0, 0.0, 0.0, 1.0, 0.0, 0.0, 0.0, 0.0, 1.0]

  /**
   * Initialising twice: the second call fails. After a successful first
   * call it does not touch GL at all; after a failed one it tries GL again.
   */
  method InitTwice(glLoads: bool) returns (first: bool, second: bool, ready: bool, log: seq<EngineCall>)
    ensures first == glLoads && !second && ready == glLoads
    ensures log == if glLoads then [LoadGL, CreateUbo, InstallDefaultSort] else [LoadGL, LoadGL]
  {
    var f := new Facade();
    first := f.InitJ3DUltra(glLoads);
    second := f.InitJ3DUltra(glLoads);
    ready, log := f.init, f.engine;
  }

  /**
   * Before initialisation every guarded entry point returns its null
   * sentinel or leaves state alone, and nothing reaches the GPU or engine;
   * only the render batch still grows.
   */
  method UninitializedIsInert(data: seq<bv8>, load: BytesLoader, proj: seq<real>, view: seq<real>)
    returns (model: Option<Instance>, bytesModel: Option<Instance>, brk: Option<Anim>, slot: Option<Anim>,
             pending: nat, log: seq<EngineCall>)
    ensures model == None && bytesModel == None && brk == None
    ensures slot == Some(Anim(Color, 1))
    ensures pending == 1 && log == []
  {
    var f := new Facade();
    var inst := new Instance();
    inst.colorSlot := Some(Anim(Color, 1));
    f.SetCamera(proj, view);
    model := f.LoadJ3DModelFromPath("model.bmd", true);
    bytesModel := f.LoadJ3DModelFromBytes(data);
    brk := f.LoadBrkFromBytes(data, load);
    f.AttachBrkFromBytes(inst, data, load);
    f.AttachBrkFromPath(inst, "anim.brk", _ => None);
    f.AttachBrkHandle(inst, None);
    f.RenderModel(inst);
    f.RenderScene(0.0, Vec3(0.0, 0.0, 0.0));
    f.CleanupJ3DUltra();
    slot, pending, log := inst.colorSlot, |f.batch|, f.engine;
  }

  /** A missing model file gives null and one diagnostic line, and the engine's loader is never called. */
  method MissingModel() returns (model: Option<Instance>, out: seq<string>, log: seq<EngineCall>)
    ensures model == None
    ensures out == ["Couldn't load model missing.bmd"]
    ensures log == [LoadGL, CreateUbo, InstallDefaultSort]
  {
    var f := new Facade();
    var ok := f.InitJ3DUltra(true);
    assert f.engine == [LoadGL, CreateUbo, InstallDefaultSort];
    model := f.LoadJ3DModelFromPath("missing.bmd", false);
    assert MissingModelMessage("missing.bmd") == "Couldn't load model missing.bmd";
    out, log := f.console, f.engine;
  }

  /**
   * One frame: initialise, set the camera, submit one instance, render.
   * Exactly one draw submission carries the instance, and the batch is empty.
   */
  method OneFrame(a: Instance) returns (pending: nat, log: seq<EngineCall>)
    ensures pending == 0
    ensures log == [LoadGL, CreateUbo, InstallDefaultSort, UploadCamera(Identity16, Identity16),
                    Render(0.016, Vec3(0.0, 0.0, 0.0), Identity16, Identity16, [a])]
  {
    var f := new Facade();
    var ok := f.InitJ3DUltra(true);
    f.SetCamera(Identity16, Identity16);
    assert MakeMat4(Identity16) == Identity16;
    f.RenderModel(a);
    assert f.engine == [LoadGL, CreateUbo, InstallDefaultSort, UploadCamera(Identity16, Identity16)];
    assert f.batch == [a];
    assert f.viewMtx == Identity16 && f.projMtx == Identity16;
    f.RenderScene(0.016, Vec3(0.0, 0.0, 0.0));
    pending, log := |f.batch|, f.engine;
  }

  /**
   * Any number of submissions, duplicates included, followed by one render:
   * the engine receives them once, in submission order, and the batch is empty.
   */
  method FrameOf(instances: seq<Instance>, cameraPos: Vec3) returns (pending: nat, log: seq<EngineCall>)
    ensures pending == 0
    ensures log == [LoadGL, CreateUbo, InstallDefaultSort, Render(0.0, cameraPos, ZeroMat4, ZeroMat4, instances)]
  {
    var f := new Facade();
    var ok := f.InitJ3DUltra(true);
    var i := 0;
    while i < |instances|
      invariant 0 <= i <= |instances|
      invariant f.init && f.viewMtx == ZeroMat4 && f.projMtx == ZeroMat4
      invariant f.engine == [LoadGL, CreateUbo, InstallDefaultSort]
      invariant f.batch == instances[..i]
    {
      f.RenderModel(instances[i]);
      i := i + 1;
    }
    assert instances[..i] == instances;
    f.RenderScene(0.0, cameraPos);
    pending, log := |f.batch|, f.engine;
  }

  /**
   * A container of another kind given to the color attach path clears a
   * color track attached before: the mismatch is silent, not an error.
   */
  method MismatchClearsColorSlot(brkData: seq<bv8>, jointData: seq<bv8>) returns (before: Option<Anim>, after: Option<Anim>)
    ensures before == Some(Anim(Color, 0))
    ensures after == None
  {
    var f := new Facade();
    var ok := f.InitJ3DUltra(true);
    var inst := new Instance();
    var colorLoader: BytesLoader := _ => Some(Color);
    var brk := f.LoadBrkFromBytes(brkData, colorLoader);
    f.AttachBrkHandle(inst, brk);
    before := inst.colorSlot;
    var jointLoader: BytesLoader := _ => Some(Joint);
    f.AttachBrkFromBytes(inst, jointData, jointLoader);
    after := inst.colorSlot;
  }

  /**
   * Loading and attaching the handle, and attaching from the same bytes
   * directly: both slots are null or both hold a color track, and the two
   * tracks are separate objects.
   */
  method LoadThenAttachSeparateTracks(data: seq<bv8>, load: BytesLoader, ready: bool)
    returns (viaHandle: Option<Anim>, direct: Option<Anim>)
    ensures IsColorHandle(viaHandle) && IsColorHandle(direct)
    ensures viaHandle.Some? <==> direct.Some?
    ensures direct.Some? <==> ready && load(data) == Some(Color)
    ensures viaHandle.Some? ==> viaHandle.value.handle != direct.value.handle
  {
    var f := new Facade();
    var ok := f.InitJ3DUltra(ready);
    var a := new Instance();
    var b := new Instance();
    var brk := f.LoadBrkFromBytes(data, load);
    f.AttachBrkHandle(a, brk);
    f.AttachBrkFromBytes(b, data, load);
    viaHandle, direct := a.colorSlot, b.colorSlot;
  }

  /** The default sort applied to packets with keys 5, 1, 9, 3 draws them with keys 9, 5, 3, 1. */
  method SortFourPackets() returns (order: seq<Packet>)
    ensures order == [Packet(9, 2), Packet(5, 0), Packet(3, 3), Packet(1, 1)]
  {
    var a := new Packet[4];
    a[0], a[1], a[2], a[3] := Packet(5, 0), Packet(1, 1), Packet(9, 2), Packet(3, 3);
    assert a[..] == [Packet(5, 0), Packet(1, 1), Packet(9, 2), Packet(3, 3)];
    DefaultSort(a);
    DescendingExample(a[..]);
    order := a[..];
  }

  /**
   * The source's cleanup leaves `init` set: initialising again reports
   * failure, the uniform buffer stays destroyed, and the next frame is
   * still drawn against it.
   */
  method ReinitAfterCleanupAsWritten() returns (first: bool, second: bool, ready: bool, uboLive: bool, drawn: bool)
    ensures first && !second
    ensures ready && !uboLive
    ensures drawn
  {
    var f := new Facade();
    first := f.InitJ3DUltra(true);
    f.CleanupJ3DUltra();
    second := f.InitJ3DUltra(true);
    ready, uboLive := f.init, f.uboAlive;
    f.RenderScene(0.0, Vec3(0.0, 0.0, 0.0));
    drawn := f.engine[|f.engine| - 1].Render?;
  }

  /** With the resetting cleanup, a second session allocates the buffer again. */
  method ReinitAfterCleanupCorrected() returns (first: bool, second: bool, ready: bool, uboLive: bool)
    ensures first && second
    ensures ready && uboLive
  {
    var f := new Facade();
    first := f.InitJ3DUltra(true);
    f.CleanupAndReset();
    second := f.InitJ3DUltra(true);
    ready, uboLive := f.init, f.uboAlive;
  }
}

=== FILE: sorting.dfy ===
/**
 * The default sort the facade installs into the engine at initialisation:
 * `std::sort` over the frame's render packets with the comparator
 * "a before b when a's sort key is greater", so higher keys are drawn first.
 * The facade's log records only that the sort was installed
 * (`InstallDefaultSort`); it refers to `DefaultSort` here by name.
 */
module Sorting {

  /**
   * A render packet as far as the sort sees it: its key, and an identity
   * standing for the rest of the packet (material, owning instance), which
   * the sort only moves around.
   */
  datatype Packet = Packet(sortKey: nat, id: nat)

  /** The default comparator: `a.SortKey > b.SortKey`. */
  predicate Before(a: Packet, b: Packet) {
    a.sortKey > b.sortKey
  }

  /** `std::sort`'s promise for a comparator: no element is ordered before one to its left. */
  predicate SortedByKey(s: seq<Packet>) {
    forall i, j :: 0 <= i < j < |s| ==> !Before(s[j], s[i])
  }

  /** No two packets of the batch share a key. */
  predicate DistinctKeys(s: seq<Packet>) {
    forall i, j :: 0 <= i < j < |s| ==> s[i].sortKey != s[j].sortKey
  }

  /**
   * The comparator meets `std::sort`'s requirement of a strict weak order:
   * irreflexive, transitive, and "neither before the other" is transitive.
   */
  lemma BeforeIsStrictWeakOrder(a: Packet, b: Packet, c: Packet)
    ensures !Before(a, a)
    ensures Before(a, b) && Before(b, c) ==> Before(a, c)
    ensures !Before(a, b) && !Before(b, a) && !Before(b, c) && !Before(c, b)
            ==> !Before(a, c) && !Before(c, a)
  {
  }

  /** Exchanging two positions keeps the packets a permutation. */
  lemma SwapKeepsPackets(s: seq<Packet>, i: nat, j: nat)
    requires i < j < |s|
    ensures multiset(s[i := s[j]][j := s[i]]) == multiset(s)
  {
  }

  /** The installed sort function: sorts the packet range in place. */
  method DefaultSort(a: array<Packet>)
    modifies a
    ensures SortedByKey(a[..])
    ensures multiset(a[..]) == multiset(old(a[..]))
  {
    var i := 0;
    while i < a.Length
      invariant 0 <= i <= a.Length
      invariant forall p, q :: 0 <= p < q < i ==> !Before(a[q], a[p])
      invariant multiset(a[..]) == multiset(old(a[..]))
    {
      InsertAt(a, i);
      i := i + 1;
    }
  }

  /** `s[..hi+1]` is sorted except that position `j` may be out of place relative to those left of it. */
  predicate SortedExcept(s: seq<Packet>, hi: nat, j: nat)
    requires hi < |s|
  {
    forall p, q :: 0 <= p < q <= hi && q != j ==> !Before(s[q], s[p])
  }

  /** Moving the out-of-place packet one step left keeps the rest in order. */
  lemma SwapStep(s: seq<Packet>, hi: nat, j: nat)
    requires 0 < j <= hi < |s|
    requires SortedExcept(s, hi, j) && Before(s[j], s[j - 1])
    ensures SortedExcept(s[j - 1 := s[j]][j := s[j - 1]], hi, j - 1)
  {
    var t := s[j - 1 := s[j]][j := s[j - 1]];
    forall p, q | 0 <= p < q <= hi && q != j - 1
      ensures !Before(t[q], t[p])
    {
      if q == j {
        if p < j - 1 {
          assert !Before(s[j - 1], s[p]);
        }
      } else if p == j - 1 {
        assert !Before(s[q], s[j - 1]);
      } else if p == j {
        assert !Before(s[q], s[j - 1]);
      }
    }
  }

  /** One insertion step: moves `a[i]` left past every packet with a smaller key. */
  method InsertAt(a: array<Packet>, i: nat)
    requires i < a.Length
    requires SortedExcept(a[..], i, i)
    modifies a
    ensures SortedExcept(a[..], i, i + 1)
    ensures multiset(a[..]) == multiset(old(a[..]))
  {
    var j := i;
    while j > 0 && Before(a[j], a[j - 1])
      invariant 0 <= j <= i
      invariant SortedExcept(a[..], i, j)
      invariant multiset(a[..]) == multiset(old(a[..]))
    {
      ghost var before := a[..];
      SwapStep(before, i, j);
      SwapKeepsPackets(before, j - 1, j);
      a[j - 1], a[j] := a[j], a[j - 1];
      assert a[..] == before[j - 1 := before[j]][j := before[j - 1]];
      j := j - 1;
    }
    ghost var s := a[..];
    forall p, q | 0 <= p < q <= i
      ensures !Before(s[q], s[p])
    {
      if q == j && p < j - 1 {
        assert !Before(s[j - 1], s[p]);
      }
    }
  }

  /** Sorted with distinct keys means strictly descending keys. */
  lemma SortedDistinctIsStrictlyDescending(s: seq<Packet>, i: nat, j: nat)
    requires SortedByKey(s) && DistinctKeys(s)
    requires i < j < |s|
    ensures s[i].sortKey > s[j].sortKey
  {
    assert !Before(s[j], s[i]);
  }

  /** The first packet of a sorted sequence carries a key no smaller than any other. */
  lemma HeadIsMaximal(s: seq<Packet>, p: Packet)
    requires SortedByKey(s) && p in multiset(s)
    ensures s[0].sortKey >= p.sortKey
  {
    var k :| 0 <= k < |s| && s[k] == p;
    if k > 0 {
      assert !Before(s[k], s[0]);
    }
  }

  /** Two sorted permutations of the same packets, the first with distinct keys, start with the same packet. */
  lemma SameHead(s: seq<Packet>, t: seq<Packet>)
    requires SortedByKey(s) && SortedByKey(t) && DistinctKeys(s)
    requires multiset(s) == multiset(t) && s != []
    ensures t != [] && s[0] == t[0]
  {
    assert s[0] in multiset(s);
    assert t != [] by { assert |t| == |multiset(t)| == |multiset(s)| == |s|; }
    assert t[0] in multiset(t);
    HeadIsMaximal(t, s[0]);
    HeadIsMaximal(s, t[0]);
    var i :| 0 <= i < |s| && s[i] == t[0];
    if i > 0 {
      assert false;
    }
  }

  /** Removing a common first packet keeps two multisets equal. */
  lemma SameTail(s: seq<Packet>, t: seq<Packet>)
    requires s != [] && t != [] && s[0] == t[0]
    requires multiset(s) == multiset(t)
    ensures multiset(s[1..]) == multiset(t[1..])
  {
    assert s == [s[0]] + s[1..];
    assert t == [t[0]] + t[1..];
    assert multiset(s[1..]) == multiset(s) - multiset{s[0]};
    assert multiset(t[1..]) == multiset(t) - multiset{t[0]};
  }

  /**
   * With distinct keys the sort's outcome is fully determined: any two
   * sorted permutations of the same packets are equal. So the engine sees
   * one draw order, whichever algorithm `std::sort` uses.
   */
  lemma {:induction false} SortedPermutationUnique(s: seq<Packet>, t: seq<Packet>)
    requires SortedByKey(s) && SortedByKey(t) && DistinctKeys(s)
    requires multiset(s) == multiset(t)
    ensures s == t
    decreases |s|
  {
    if s == [] {
      assert |t| == |multiset(t)| == 0;
    } else {
      SameHead(s, t);
      SameTail(s, t);
      SortedPermutationUnique(s[1..], t[1..]);
      assert s == [s[0]] + s[1..];
      assert t == [t[0]] + t[1..];
    }
  }

  /** Moving the third of four elements to the front and the second to the back keeps the multiset. */
  lemma Rearrange4<T>(a: T, b: T, c: T, d: T)
    ensures multiset([c, a, d, b]) == multiset([a, b, c, d])
  {
  }

  /**
   * Packets with keys 5, 1, 9, 3 are drawn in the order 9, 5, 3, 1,
   * whatever sorted permutation the sort produced.
   */
  lemma DescendingExample(r: seq<Packet>)
    requires SortedByKey(r)
    requires multiset(r) == multiset([Packet(5, 0), Packet(1, 1), Packet(9, 2), Packet(3, 3)])
    ensures r == [Packet(9, 2), Packet(5, 0), Packet(3, 3), Packet(1, 1)]
  {
    var expected := [Packet(9, 2), Packet(5, 0), Packet(3, 3), Packet(1, 1)];
    assert SortedByKey(expected);
    assert DistinctKeys(expected);
    Rearrange4(Packet(5, 0), Packet(1, 1), Packet(9, 2), Packet(3, 3));
    assert multiset(expected) == multiset(r);
    SortedPermutationUnique(expected, r);
  }
}

=== FILE: wrappers.dfy ===
/** The null-or-value shape of the facade's shared pointers. */
module Wrappers {

  /** `None` stands for a null `shared_ptr`, `Some(v)` for a pointer to `v`. */
  datatype Option<+T> = None | Some(value: T)
}
